=== FILE: README.md ===
# XKeys in Dafny

A model of XKeys (`lib/xkeys.rb`), a Ruby library that reads and writes values at any
depth of a tree of nested Hashes and Arrays with Perl-style auto-vivification. It
has three parts:

- **Extended read.** `xfetch` folds `fetch` over a key list. `[]` chooses between
  native element access, the native Array slice and that fold.
- **`Set_Hash` write policy.** `[]=` with several keys creates an Array only for a
  `nil` next key.
- **`Set_Auto` write policy.** `[]=` with several keys creates an Array for a `nil`
  or Integer next key.

Files:

- `native.dfy` (module `Native`): the value model and the Ruby built-ins the engine
  calls.
  - Keys are `nil`, Integers or Symbols.
  - A value is `nil`, `false`, a String leaf, a Hash or an Array.
  - The built-ins are `fetch`, `[]`, `[]=` (which pads with `nil`), `count` and
    `Array#[start, length]`.
- `paths.dfy` (module `Paths`): addresses a node by the list of resolved slots from
  the root. It writes a changed node back along that list.
- `get.dfy` (module `XKeysGet`): `xfetch` and `[]`. An explicit `Options` value
  stands in for the trailing option Hash. Its `elseValue` is present exactly when
  the Hash has an `:else` key.
- `set.dfy` (module `XKeysSet`): the two write policies as functions.
  - `Step` is one turn of the `inject` block.
  - `WriteFrom` is the path form.
  - `Assign` is the whole `[]=`.
  - The file also holds the lemmas about them.
- `tree.dfy` (module `XKeysTree`): class `KeyedTree`, a root changed in place, with
  the write policy fixed at construction.
  - Its method `AssignPath` walks the `inject` cursor `(node, key)` with a loop, and
    `Assign` dispatches between it, the push and the native store.
  - Their postconditions prove them equal to `XKeysSet.WriteFrom` and
    `XKeysSet.Assign`.
- `examples.dfy` (module `XKeysExamples`): the concrete cases of the repository's
  tests.

Errors are values. `KeyError` and `IndexError` are told apart because `xfetch`
catches exactly those two. Every other exception is `OtherError`.

Where the tests and the code disagree, the model follows the code:

- `h[:b, :d, {:raise => RuntimeError}]` (test/01get.rb:30-35): the code ignores
  `:raise`. With no `:else` it re-raises KeyError.
- `a[1, 1, {}]` (test/01get.rb:59): the code raises IndexError, where the test
  expects `nil`. This is `XKeysExamples.ArrayGet`.
- `a[:[]] = ?1` (test/02hash.rb:29-30): only `nil` pushes. A Symbol index is a
  native Array store and fails. This is `XKeysExamples.ArrayRootSingleKey`.
- `a[0, 2] = 'X'` under Set_Auto (test/05xkeys_new.rb:13-15): the test expects an
  `xkeys_new` hook to supply `"abcde"` as the new container, but lib/xkeys.rb calls no
  such hook. The code vivifies an empty Array, giving `[[nil, nil, 'X']]`. This is
  `XKeysExamples.NoNewHook`.

## Model

| member | source | states |
|---|---|---|
| Native.Fetch | lib/xkeys.rb:27 | `fetch` finds the element whenever the key or index addresses one, and finds something only then, exactly at an existing Hash key or an Integer in [-length, length). Otherwise a Hash raises KeyError, an Array raises IndexError, and a non-Integer Array index or a non-container fails with another error |
| Native.Read | lib/xkeys.rb:77-78 | one-argument `[]` agrees with `fetch` where `fetch` finds something. It reads `nil` where `fetch` reports a missing key or index, and fails where `fetch` fails otherwise |
| Native.Store | lib/xkeys.rb:85 | native `[]=` succeeds exactly on a Hash, or on an Array with an Integer index not before the start. A later `fetch` of the same key finds the value and every other slot is unchanged. A Hash gains exactly that key. An Array grows to exactly max(size, index + 1), the gap reading `nil`. No existing slot disappears and the container kind is kept |
| Native.Count | lib/xkeys.rb:78 | `count` succeeds exactly on a Hash or an Array, and is its number of entries or elements |
| Native.Slice | lib/xkeys.rb:50-53 | `array[start, length]` is `nil` unless the resolved start lies in [0, size] and the length is non-negative. Otherwise it is the min(length, size - start) elements from start on, element by element |
| XKeysGet.LeadingNilIgnored | lib/xkeys.rb:18-25 | prefixing `nil` to a key list that does not start with `nil` leaves `xfetch` unchanged, whatever the options |
| XKeysGet.XFetch | lib/xkeys.rb:21-33 | a path that exists returns its element. A missing key or index returns the `:else` value when one is given, and otherwise raises that step's KeyError or IndexError; these two escape only then. Any other failure escapes even with `:else` |
| XKeysGet.FetchPathAppend | lib/xkeys.rb:26-32 | the fold over `a + b` is the fold over `a` continued with `b`, and a failure along `a` is final |
| XKeysGet.XFetchStopsAtFirstMiss | lib/xkeys.rb:26-31 | at the first missing key or index, the keys after it are never looked at. The result is the `:else` value, whatever it is (`false` and `nil` included), or else that step's KeyError or IndexError |
| XKeysGet.Index | lib/xkeys.rb:49-57 | one argument is a native read. Two Integers on an Array with no option Hash are a native slice. Anything else is `xfetch`, with `:else => nil` added when no option Hash is given, so such a read never raises KeyError or IndexError |
| XKeysGet.LeadingNilForcesPath | lib/xkeys.rb:41-54 | a leading `nil` or a trailing option Hash turns two Integers on an Array into a nested lookup |
| XKeysSet.FreshDecidesKind | lib/xkeys.rb:76-81 | once a successful step fills a `nil` or `false` slot, the node left in that slot is an Array exactly when the next key is `nil` (or, under the auto policy, lines 109-113, an Integer), whatever keys follow; otherwise a Hash |
| XKeysSet.Step | lib/xkeys.rb:108-115 | `node[key] \|\|= fresh` keeps a truthy element unchanged and fills only a `nil` or `false` one. Other slots are untouched and the kind is kept. The step succeeds on an existing container, and on a `nil` or `false` slot the node can store into. A filled slot is the native store of the fresh container, so a Hash gains exactly that key and an Array grows exactly to hold that index. No existing slot disappears. The new cursor addresses the element now in that slot. A `nil` next key resolves to that element's `count` and any other next key is kept, so the cursor key is never `nil` |
| XKeysSet.WriteFrom | lib/xkeys.rb:75-86 | the path form returns the assigned value when it succeeds. It keeps the node's kind, removes no slot and changes no slot other than the one the first key resolves to, also when it fails midway. The node is left as it was or gains exactly that slot; on success a Hash gains exactly that key and an Array grows exactly to hold that index |
| XKeysSet.WriteFromVivifies | lib/xkeys.rb:75-86 | auto-vivification succeeds: from a `nil` or `false` slot the node can store into, a path write whose later keys are no negative Integers returns the value |
| XKeysSet.VivifyThenFetch | lib/xkeys.rb:75-86 | round trip with no success premise: such a vivifying write of keys that are neither `nil` nor negative Integers is found again by fetching the same keys |
| XKeysSet.WriteFromFrame | lib/xkeys.rb:75-86 | at every depth, a node reached along slots that leave the written path is unchanged, and such a slot path that existed still exists |
| XKeysSet.Assign | lib/xkeys.rb:67-89 | `[]=` returns the assigned value for two or more keys and keeps the root's kind. One `nil` key on an Array root appends: one more element, earlier elements unchanged; Set_Hash then returns the value and Set_Auto (lines 100-102) the Array. Any other single key is the native store, returning the value, or failing with the root unchanged |
| XKeysSet.WriteThenFetch | lib/xkeys.rb:75-86 | after a successful path write whose later keys are not `nil`, fetching the same keys finds the value |
| XKeysSet.AssignThenXFetch | lib/xkeys.rb:67-89 | round trip: after `root[keys] = v` succeeds with no `nil` key, `xfetch(keys)` returns `v` under any options |
| XKeysSet.AssignThenIndex | lib/xkeys.rb:49-57 | round trip through `[]`: the same holds, except for two Integer keys on an Array root, which read back a slice |
| XKeysSet.PoliciesAgreeWithoutIntegers | lib/xkeys.rb:108-120 | with no Integer among the next keys, the hash and auto policies write the same tree and give the same outcome |
| XKeysSet.TrailingNilAppends | lib/xkeys.rb:76-78 | a trailing `nil` appends the value as element `count` of the Array at that slot: the existing Array, or a fresh one in place of `nil` or `false` |
| XKeysSet.IntegerKeyVivifies | lib/xkeys.rb:109-118 | a non-negative Integer next key into an empty slot: the auto policy creates an Array padded with `nil` up to that index, and the hash policy a Hash with that Integer key |
| XKeysTree.KeyedTree.constructor | lib/xkeys.rb:129-131 | a root Hash or Array paired with the write policy chosen once |
| XKeysTree.KeyedTree.Assign | lib/xkeys.rb:99-123 | the in-place `[]=` leaves exactly the root and outcome of `XKeysSet.Assign`. The root keeps its kind |
| XKeysTree.KeyedTree.AssignPath | lib/xkeys.rb:105-121 | the loop over the keys leaves exactly the root and outcome of `XKeysSet.WriteFrom`, including partial writes on failure |
| XKeysExamples.HashGet | test/01get.rb:6-36 | the Hash read cases: `xfetch` and `[]` hits, `:else => false`, the `nil` default and the re-raised KeyError |
| XKeysExamples.ArrayGet | test/01get.rb:38-63 | the Array read cases: the `a[1, 1]` slice, `a[1, 0, {}]`, and the IndexError that `a[1, 1, {}]` re-raises |
| XKeysExamples.HashRootShapes | test/02hash.rb:6-15 | `h[:a] = 'a'` and `h[:a, :b] = 'ab'` give the same Hashes under both policies |
| XKeysExamples.HashRootIntegerKeys | test/02hash.rb:17-18 | `h[1, 2] = '12'` gives `{1=>{2=>'12'}}` under the hash policy |
| XKeysExamples.HashRootIntegerKeysAuto | test/03auto.rb:17-18 | `h[1, 2] = '12'` gives `{1=>[nil, nil, '12']}` under the auto policy |
| XKeysExamples.ArrayRootSingleKey | test/02hash.rb:21-30 | single-key writes on an Array: a store, a `nil` push (Set_Auto returns the Array), and a Symbol index that fails |
| XKeysExamples.ArrayRootSymbolPath | test/02hash.rb:32-33 | `a[0, :a] = '0:a'` gives `[{:a=>'0:a'}]` under both policies |
| XKeysExamples.ArrayRootIntegerPath | test/03auto.rb:32-33 | `a[0, 1] = '01'` gives `[{1=>'01'}]` under the hash policy and `[[nil, '01']]` under the auto policy |
| XKeysExamples.PushTwice | lib/xkeys.rb:69-70 | two `nil` pushes onto `[]` give `['0', '1']` |
| XKeysExamples.NilInPathVivifies | lib/xkeys.rb:76-78 | `h[:a, nil] = x` creates `{:a=>[x]}` |
| XKeysExamples.NilInPathAppends | lib/xkeys.rb:76-78 | a second `h[:a, nil] = y` appends to the same Array |
| XKeysExamples.NilOnExistingHash | lib/xkeys.rb:77-78 | a `nil` key that meets an existing Hash resolves to its entry count, which becomes an Integer Hash key |
| XKeysExamples.SiblingKept | lib/xkeys.rb:80-81 | writing beside an existing subtree keeps that subtree |
| XKeysExamples.NoNewHook | test/05xkeys_new.rb:13-15 | `a[0, 2] = 'X'` on `[]` under the auto policy gives `[[nil, nil, 'X']]`: the container vivified is always a fresh empty Array or Hash |

## Left out

- Runtime mixing of `XKeys::Get`, `Set_Hash` and `Set_Auto` onto built-in objects
  (`extend`) is left out. A root carries a `Policy` chosen once instead. Vivified
  children are plain values, as in the source.
- The Ruby objects are modelled as values. Object identity, shared subtrees
  (aliasing), Hash default procs and frozen objects are not modelled.
  - The write cursor holds the path from the root rather than a reference to the
    nested container.
  - `Slot` and `Child` do not tell an absent Hash key from one holding `nil`; the exact
    key sets are stated separately by `Store`, `Step` and `WriteFrom`.
  - A change at the cursor is written back along that path.
- Strings are leaves. `String#[]`, `String#[]=` and `String#count` are not part of
  this model. A write or read that reaches them inside a path is reported as
  `OtherError`.
- Keys are `nil`, Integers and Symbols only. Hashes, Ranges and other objects used as
  keys are left out, so a trailing option Hash can never be mistaken for a key.
  - A lone option Hash given to `[]` is modelled as a native lookup of a Hash key:
    `nil` on a Hash root, a failure on an Array root.
- The exception hierarchy is reduced to KeyError, IndexError and one `OtherError`.
- XKeysSet.Assign: the zero-key call `a[] = v` is excluded by `requires |keys| >= 1`.
  In Ruby the lone value is then both key and value. A non-`nil` value is stored under
  itself (lib/xkeys.rb:85, 119). A `nil` value is pushed by Set_Hash with `<<`, which
  fails on a Hash (line 84), and is stored at `count` by Set_Auto (line 118). Values
  other than `nil`, Integers and Symbols are not keys in this model.
- XKeysGet.Index: requires a Hash or Array root, the objects the module is mixed into.
- XKeysSet.WriteThenFetch: the round trip is stated for later keys that are not `nil`.
  A `nil` key resolves to a count, so fetching the literal `nil` does not retrace the
  write. The leading-`nil` skip of `xfetch` is why `AssignThenXFetch` excludes a
  `nil` first key.
- For two or more keys, `Step` proves the cursor key is never `nil`. So the `nil` case
  of the final store never runs: `node << args[-1]` at lib/xkeys.rb:84, and the
  `|| node.count` at line 118. The model stores unconditionally. Line 117's Integer case
  does run, as an ordinary native store.

=== FILE: examples.dfy ===
/**
  The concrete cases of the repository's tests, stated against the model.
 */
module XKeysExamples {
  import opened Native
  import opened XKeysGet
  import opened XKeysSet

  function S(s: string): Val { Leaf(s) }

  /** `{ :a => 'a', :b => { :c => 'bc' }, :d => { :e => { :f => 'def' }}}` */
  const H: Val := HashV(map[
    SymK("a") := S("a"),
    SymK("b") := HashV(map[SymK("c") := S("bc")]),
    SymK("d") := HashV(map[SymK("e") := HashV(map[SymK("f") := S("def")])])])

  /** `[ '0', [ '1.0' ], [ '2.0', [ '2.1.0', '2.1.1' ]]]` */
  const A: Val := ArrV([S("0"), ArrV([S("1.0")]), ArrV([S("2.0"), ArrV([S("2.1.0"), S("2.1.1")])])])

  const NoOpts: Option<Options> := None
  const EmptyOpts: Option<Options> := Some(Options(None))
  function ElseOf(d: Val): Option<Options> { Some(Options(Some(d))) }

  lemma HashGet()
    ensures XFetch(H, [SymK("a")], NoOpts) == Ok(S("a"))
    ensures XFetch(H, [SymK("b")], NoOpts) == Ok(HashV(map[SymK("c") := S("bc")]))
    ensures XFetch(H, [SymK("b"), SymK("c")], NoOpts) == Ok(S("bc"))
    ensures XFetch(H, [SymK("b"), SymK("d")], ElseOf(FalseV)) == Ok(FalseV)
    ensures XFetch(H, [SymK("b"), SymK("d")], NoOpts) == Err(KeyError)
    ensures Index(H, [SymK("a")], NoOpts) == Ok(S("a"))
    ensures Index(H, [SymK("b"), SymK("c")], NoOpts) == Ok(S("bc"))
    ensures Index(H, [SymK("b"), SymK("d")], ElseOf(FalseV)) == Ok(FalseV)
    ensures Index(H, [SymK("b"), SymK("d")], NoOpts) == Ok(NilV)
    // an option Hash without `:else` (such as `{:raise => true}`) re-raises
    ensures Index(H, [SymK("b"), SymK("d")], EmptyOpts) == Err(KeyError)
  {
  }

  lemma ArrayGet()
    ensures XFetch(A, [IntK(0)], NoOpts) == Ok(S("0"))
    ensures XFetch(A, [IntK(1), IntK(0)], NoOpts) == Ok(S("1.0"))
    ensures XFetch(A, [IntK(1), IntK(0)], EmptyOpts) == Ok(S("1.0"))
    ensures XFetch(A, [IntK(2), IntK(1), IntK(1)], NoOpts) == Ok(S("2.1.1"))
    ensures XFetch(A, [IntK(1), IntK(1)], ElseOf(FalseV)) == Ok(FalseV)
    ensures XFetch(A, [IntK(1), IntK(1)], NoOpts) == Err(IndexError)
    ensures Index(A, [IntK(0)], NoOpts) == Ok(S("0"))
    ensures Index(A, [IntK(1), IntK(1)], NoOpts) == Ok(ArrV([ArrV([S("1.0")])]))
    ensures Index(A, [IntK(1), IntK(0)], EmptyOpts) == Ok(S("1.0"))
    ensures Index(A, [IntK(2), IntK(1), IntK(1)], NoOpts) == Ok(S("2.1.1"))
    ensures Index(A, [IntK(1), IntK(1)], ElseOf(FalseV)) == Ok(FalseV)
    // `a[1, 1, {}]`: an empty option Hash has no `:else`, so the IndexError is re-raised
    ensures Index(A, [IntK(1), IntK(1)], EmptyOpts) == Err(IndexError)
    ensures Index(A, [NilK, IntK(1), IntK(0)], NoOpts) == Ok(S("1.0"))
  {
    assert A.a[1..2] == [ArrV([S("1.0")])];
    assert SkipLeadingNil([NilK, IntK(1), IntK(0)]) == [IntK(1), IntK(0)];
  }

  const Empty: Val := HashV(map[])

  lemma HashRootShapes(p: Policy)
    ensures Assign(p, Empty, [SymK("a")], S("a")) == (HashV(map[SymK("a") := S("a")]), Ok(S("a")))
    ensures Assign(p, Empty, [SymK("a"), SymK("b")], S("ab")) ==
              (HashV(map[SymK("a") := HashV(map[SymK("b") := S("ab")])]), Ok(S("ab")))
  {
    assert [SymK("a"), SymK("b")][1..] == [SymK("b")] && [SymK("b")][1..] == [];
    assert Step(p, Empty, SymK("a"), SymK("b")) ==
             Ok(Cursor(HashV(map[SymK("a") := Empty]), SymK("a"), Empty, SymK("b")));
    assert map[SymK("a") := Empty][SymK("a") := HashV(map[SymK("b") := S("ab")])] ==
             map[SymK("a") := HashV(map[SymK("b") := S("ab")])];
  }

  /** `h[1, 2] = '12'` under the hash policy: Integer keys make nested Hashes. */
  lemma HashRootIntegerKeys()
    ensures Assign(HashPolicy, Empty, [IntK(1), IntK(2)], S("12")).0 ==
              HashV(map[IntK(1) := HashV(map[IntK(2) := S("12")])])
  {
    assert [IntK(1), IntK(2)][1..] == [IntK(2)] && [IntK(2)][1..] == [];
    assert Step(HashPolicy, Empty, IntK(1), IntK(2)) ==
             Ok(Cursor(HashV(map[IntK(1) := Empty]), IntK(1), Empty, IntK(2)));
    assert map[IntK(1) := Empty][IntK(1) := HashV(map[IntK(2) := S("12")])] ==
             map[IntK(1) := HashV(map[IntK(2) := S("12")])];
  }

  /** `h[1, 2] = '12'` under the auto policy: an Integer key makes an Array padded with nil. */
  lemma HashRootIntegerKeysAuto()
    ensures Assign(AutoPolicy, Empty, [IntK(1), IntK(2)], S("12")).0 ==
              HashV(map[IntK(1) := ArrV([NilV, NilV, S("12")])])
  {
    assert [IntK(1), IntK(2)][1..] == [IntK(2)] && [IntK(2)][1..] == [];
    assert Nils(2) == [NilV, NilV];
    assert Step(AutoPolicy, Empty, IntK(1), IntK(2)) ==
             Ok(Cursor(HashV(map[IntK(1) := ArrV([])]), IntK(1), ArrV([]), IntK(2)));
    assert [] + Nils(2) + [S("12")] == [NilV, NilV, S("12")];
    assert Store(ArrV([]), IntK(2), S("12")) == Ok(ArrV([NilV, NilV, S("12")]));
  }

  lemma ArrayRootSingleKey()
    ensures Assign(HashPolicy, ArrV([]), [IntK(0)], S("0")).0 == ArrV([S("0")])
    ensures Assign(HashPolicy, ArrV([S("0")]), [NilK], S("1")) == (ArrV([S("0"), S("1")]), Ok(S("1")))
    // Set_Auto's two-argument push returns the Array itself
    ensures Assign(AutoPolicy, ArrV([S("0")]), [NilK], S("1")).1 == Ok(ArrV([S("0"), S("1")]))
    // only `nil` pushes: the Symbol `:[]` is a native Array store and fails
    ensures Assign(HashPolicy, ArrV([S("0")]), [SymK("[]")], S("1")).1 == Err(OtherError)
  {
    assert [] + Nils(0) + [S("0")] == [S("0")];
    assert [S("0")] + [S("1")] == [S("0"), S("1")];
  }

  lemma ArrayRootSymbolPath(p: Policy)
    ensures Assign(p, ArrV([]), [IntK(0), SymK("a")], S("0:a")).0 ==
              ArrV([HashV(map[SymK("a") := S("0:a")])])
  {
  }

  lemma ArrayRootIntegerPath()
    ensures Assign(HashPolicy, ArrV([]), [IntK(0), IntK(1)], S("01")).0 ==
              ArrV([HashV(map[IntK(1) := S("01")])])
    ensures Assign(AutoPolicy, ArrV([]), [IntK(0), IntK(1)], S("01")).0 ==
              ArrV([ArrV([NilV, S("01")])])
  {
    assert [IntK(0), IntK(1)][1..] == [IntK(1)] && [IntK(1)][1..] == [];
    assert [] + Nils(0) + [Empty] == [Empty];
    assert Step(HashPolicy, ArrV([]), IntK(0), IntK(1)) ==
             Ok(Cursor(ArrV([Empty]), IntK(0), Empty, IntK(1)));
    assert [] + Nils(0) + [ArrV([])] == [ArrV([])];
    assert [] + Nils(1) + [S("01")] == [NilV, S("01")];
    assert Step(AutoPolicy, ArrV([]), IntK(0), IntK(1)) ==
             Ok(Cursor(ArrV([ArrV([])]), IntK(0), ArrV([]), IntK(1)));
    assert Store(ArrV([]), IntK(1), S("01")) == Ok(ArrV([NilV, S("01")]));
  }

  /** Two pushes onto an empty Array root. */
  lemma PushTwice(p: Policy)
    ensures Assign(p, Assign(p, ArrV([]), [NilK], S("0")).0, [NilK], S("1")).0 == ArrV([S("0"), S("1")])
  {
  }

  /** A `nil` inside the path vivifies an Array and appends to it. */
  lemma NilInPathVivifies(p: Policy)
    ensures Assign(p, Empty, [SymK("a"), NilK], S("x")).0 == HashV(map[SymK("a") := ArrV([S("x")])])
  {
    assert [SymK("a"), NilK][1..] == [NilK] && [NilK][1..] == [];
    assert Nils(0) == [];
    assert Step(p, Empty, SymK("a"), NilK) ==
             Ok(Cursor(HashV(map[SymK("a") := ArrV([])]), SymK("a"), ArrV([]), IntK(0)));
    assert [] + Nils(0) + [S("x")] == [S("x")];
    assert Store(ArrV([]), IntK(0), S("x")) == Ok(ArrV([S("x")]));
  }

  /** A second write with a `nil` in the path appends to the same Array. */
  lemma NilInPathAppends(p: Policy)
    ensures Assign(p, HashV(map[SymK("a") := ArrV([S("x")])]), [SymK("a"), NilK], S("y")).0 ==
              HashV(map[SymK("a") := ArrV([S("x"), S("y")])])
  {
    assert [SymK("a"), NilK][1..] == [NilK] && [NilK][1..] == [];
    assert [S("x")] + Nils(0) + [S("y")] == [S("x"), S("y")];
    var h1 := HashV(map[SymK("a") := ArrV([S("x")])]);
    assert Step(p, h1, SymK("a"), NilK) == Ok(Cursor(h1, SymK("a"), ArrV([S("x")]), IntK(1)));
    assert Store(ArrV([S("x")]), IntK(1), S("y")) == Ok(ArrV([S("x"), S("y")]));
  }

  /** A `nil` key meeting an existing Hash resolves to that Hash's entry count, which
      becomes an Integer Hash key. */
  lemma NilOnExistingHash(p: Policy)
    ensures Assign(p, HashV(map[SymK("a") := HashV(map[SymK("x") := S("1")])]), [SymK("a"), NilK], S("v")).0 ==
              HashV(map[SymK("a") := HashV(map[SymK("x") := S("1"), IntK(1) := S("v")])])
  {
    assert [SymK("a"), NilK][1..] == [NilK] && [NilK][1..] == [];
    var inner := HashV(map[SymK("x") := S("1")]);
    var h := HashV(map[SymK("a") := inner]);
    assert Step(p, h, SymK("a"), NilK) == Ok(Cursor(h, SymK("a"), inner, IntK(1)));
    var filled := HashV(map[SymK("x") := S("1"), IntK(1) := S("v")]);
    assert inner.m[IntK(1) := S("v")] == filled.m;
    assert WriteFrom(p, inner, IntK(1), [], S("v")) == (filled, Ok(S("v")));
    assert h.m[SymK("a") := filled] == map[SymK("a") := filled];
  }

  /** Writing beside an existing subtree leaves it as it was. */
  lemma SiblingKept(p: Policy)
    ensures Assign(p, HashV(map[SymK("a") := HashV(map[SymK("b") := S("ab")])]), [SymK("a"), SymK("c")], S("ac")).0 ==
              HashV(map[SymK("a") := HashV(map[SymK("b") := S("ab"), SymK("c") := S("ac")])])
  {
  }

  /** `a[0, 2] = 'X'` on `[]` under the auto policy: the slot is vivified with an empty
      Array, which is then padded with nil up to index 2. */
  lemma NoNewHook()
    ensures Assign(AutoPolicy, ArrV([]), [IntK(0), IntK(2)], S("X")).0 == ArrV([ArrV([NilV, NilV, S("X")])])
  {
    assert [IntK(0), IntK(2)][1..] == [IntK(2)] && [IntK(2)][1..] == [];
    assert [] + Nils(0) + [ArrV([])] == [ArrV([])];
    assert Step(AutoPolicy, ArrV([]), IntK(0), IntK(2)) ==
             Ok(Cursor(ArrV([ArrV([])]), IntK(0), ArrV([]), IntK(2)));
    assert [] + Nils(2) + [S("X")] == [NilV, NilV, S("X")];
    assert Store(ArrV([]), IntK(2), S("X")) == Ok(ArrV([NilV, NilV, S("X")]));
  }
}

=== FILE: get.dfy ===
/**
  XKeys::Get: extended fetch (`xfetch`) and extended get (`[]`) over a tree of
  nested Hashes and Arrays. Both only read the tree.
 */
module XKeysGet {
  import opened Native

  /** The trailing option Hash of a read. Only its `:else` entry has an effect;
      `elseValue` is `Some(d)` exactly when the Hash has the key `:else` (even when
      `d` is `nil` or `false`). */
  datatype Options = Options(elseValue: Option<Val>)

  predicate HasElse(opts: Option<Options>) {
    opts.Some? && opts.value.elseValue.Some?
  }

  /** `keys.inject(node) { |n, k| n.fetch k }`, stopping at the first fetch that fails. */
  function FetchPath(node: Val, keys: seq<Key>): Fetched
    decreases |keys|
  {
    if keys == [] then Found(node)
    else
      match Fetch(node, keys[0])
      case Found(child) => FetchPath(child, keys[1..])
      case failed => failed
  }

  /** An optional leading `nil` key is ignored. */
  function SkipLeadingNil(keys: seq<Key>): seq<Key> {
    if |keys| > 0 && keys[0] == NilK then keys[1..] else keys
  }

  /** `xfetch([nil,] key1, ..., keyN [, options])`. With no argument at all the key
      list `args[1..-1]` is `nil` and the call fails. */
  function XFetch(root: Val, keys: seq<Key>, opts: Option<Options>): (r: Result<Val>)
    ensures HasElse(opts) && r.Err? ==> r.error == OtherError
    ensures r.Err? && r.error != OtherError ==>
              !HasElse(opts) && FetchPath(root, SkipLeadingNil(keys)) == Missing(r.error)
    ensures FetchPath(root, SkipLeadingNil(keys)).Found? && (keys != [] || opts.Some?) ==>
              r == Ok(FetchPath(root, SkipLeadingNil(keys)).v)
    // only a missing key or index turns into the `:else` value; any other failure escapes
    ensures FetchPath(root, SkipLeadingNil(keys)).Missing? && HasElse(opts) ==>
              r == Ok(opts.value.elseValue.value)
    ensures FetchPath(root, SkipLeadingNil(keys)).Missing? && !HasElse(opts) ==>
              r == Err(FetchPath(root, SkipLeadingNil(keys)).err)
    ensures FetchPath(root, SkipLeadingNil(keys)).TypeFail? ==> r == Err(OtherError)
  {
    if keys == [] && opts.None? then Err(OtherError)
    else
      match FetchPath(root, SkipLeadingNil(keys))
      case Found(v) => Ok(v)
      case Missing(e) => if HasElse(opts) then Ok(opts.value.elseValue.value) else Err(e)
      case TypeFail => Err(OtherError)
  }

  /** The number of positional arguments of the Ruby call. */
  function ArgCount(keys: seq<Key>, opts: Option<Options>): nat {
    |keys| + if opts.Some? then 1 else 0
  }

  /** `array[start, length]`: two Integer arguments and no option Hash on an Array. */
  predicate IsSliceCall(root: Val, keys: seq<Key>, opts: Option<Options>) {
    root.ArrV? && opts.None? && |keys| == 2 && keys[0].IntK? && keys[1].IntK?
  }

  /** The option `:else => nil` that `[]` adds when the caller gives no option Hash. */
  const ElseNil: Option<Options> := Some(Options(Some(NilV)))

  /** `[]` on a Hash or Array extended with XKeys::Get. A single argument is a native
      element read; two Integers on an Array are a native slice; anything else is an
      extended fetch, with `:else => nil` when no option Hash is given. */
  function Index(root: Val, keys: seq<Key>, opts: Option<Options>): (r: Result<Val>)
    requires IsContainer(root)
    ensures ArgCount(keys, opts) == 1 && opts.None? ==> r == Read(root, keys[0])
    ensures IsSliceCall(root, keys, opts) ==> r == Ok(Slice(root.a, keys[0].i, keys[1].i))
    ensures ArgCount(keys, opts) != 1 && !IsSliceCall(root, keys, opts) ==>
              r == XFetch(root, keys, if opts.Some? then opts else ElseNil)
    ensures ArgCount(keys, opts) != 1 && opts.None? && r.Err? ==> r.error == OtherError
  {
    if ArgCount(keys, opts) == 1 then
      if opts.None? then Read(root, keys[0])
      // a lone option Hash is itself the one argument: no Hash holds a Hash key here,
      // and an Array cannot be indexed by a Hash
      else if root.HashV? then Ok(NilV) else Err(OtherError)
    else if IsSliceCall(root, keys, opts) then Ok(Slice(root.a, keys[0].i, keys[1].i))
    else if opts.Some? then XFetch(root, keys, opts)
    else XFetch(root, keys, ElseNil)
  }

  /** Fetching along `a + b` is fetching along `a` and then along `b` from where it ended;
      a failure along `a` is the result. */
  lemma {:induction false} FetchPathAppend(node: Val, a: seq<Key>, b: seq<Key>)
    ensures FetchPath(node, a + b) ==
              if FetchPath(node, a).Found? then FetchPath(FetchPath(node, a).v, b)
              else FetchPath(node, a)
    decreases |a|
  {
    if a == [] {
      assert a + b == b;
    } else {
      assert (a + b)[0] == a[0];
      assert (a + b)[1..] == a[1..] + b;
      if Fetch(node, a[0]).Found? {
        FetchPathAppend(Fetch(node, a[0]).v, a[1..], b);
      }
    }
  }

  /** The extended fetch stops at the first missing key or index: what follows it is
      never looked at, and the `:else` value (whatever it is) or the KeyError/IndexError
      of that step is the result. */
  lemma XFetchStopsAtFirstMiss(root: Val, keys: seq<Key>, j: nat, opts: Option<Options>)
    requires keys != [] && keys[0] != NilK && j < |keys|
    requires FetchPath(root, keys[..j]).Found?
    requires Fetch(FetchPath(root, keys[..j]).v, keys[j]).Missing?
    ensures HasElse(opts) ==> XFetch(root, keys, opts) == Ok(opts.value.elseValue.value)
    ensures !HasElse(opts) ==>
              XFetch(root, keys, opts) == Err(Fetch(FetchPath(root, keys[..j]).v, keys[j]).err)
  {
    assert keys == keys[..j] + keys[j..];
    FetchPathAppend(root, keys[..j], keys[j..]);
    assert keys[j..][0] == keys[j];
  }

  /** The optional leading `nil` is ignored: prefixing one to a key list that does not
      already start with `nil` leaves the extended fetch unchanged. */
  lemma LeadingNilIgnored(root: Val, keys: seq<Key>, opts: Option<Options>)
    requires keys != [] && keys[0] != NilK
    ensures XFetch(root, [NilK] + keys, opts) == XFetch(root, keys, opts)
  {
  }

  /** A leading `nil` (or a trailing option Hash) turns two Integers on an Array into a
      nested lookup instead of a slice. */
  lemma LeadingNilForcesPath(root: Val, i: int, j: int)
    requires root.ArrV?
    ensures Index(root, [NilK, IntK(i), IntK(j)], None) ==
              XFetch(root, [IntK(i), IntK(j)], ElseNil)
    ensures Index(root, [IntK(i), IntK(j)], Some(Options(None))) ==
              XFetch(root, [IntK(i), IntK(j)], Some(Options(None)))
  {
  }
}

=== FILE: native.dfy ===
/**
  The parts of Ruby's built-in Hash and Array that the xkeys engine relies on:
  `fetch`, one-argument element read `[]`, element store `[]=`, `count` and
  the two-argument Array slice `[start, length]`.
 */
module Native {

  datatype Option<+T> = None | Some(value: T)

  /** A key or index as the engine sees it: Ruby `nil`, an Integer or a Symbol. */
  datatype Key = NilK | IntK(i: int) | SymK(name: string)

  /** A value in a tree: `nil`, `false`, a non-container leaf (a String), a Hash or an Array. */
  datatype Val = NilV | FalseV | Leaf(s: string) | HashV(m: map<Key, Val>) | ArrV(a: seq<Val>)

  /** The exceptions the engine tells apart; every other failure is `OtherError`. */
  datatype Error = KeyError | IndexError | OtherError

  datatype Result<+T> = Ok(value: T) | Err(error: Error)

  /** The outcome of one `fetch`: the element, a missing key or index, or any other failure. */
  datatype Fetched = Found(v: Val) | Missing(err: Error) | TypeFail

  /** Ruby truth: only `nil` and `false` are falsy (what `||=` tests). */
  predicate Truthy(v: Val) {
    !v.NilV? && !v.FalseV?
  }

  predicate IsContainer(v: Val) {
    v.HashV? || v.ArrV?
  }

  predicate SameKind(u: Val, v: Val) {
    (u.HashV? <==> v.HashV?) && (u.ArrV? <==> v.ArrV?)
  }

  /** An Integer index against an Array of length `n`: a negative index counts from the end. */
  function ResolveIndex(i: int, n: nat): int {
    if i < 0 then i + n else i
  }

  /** A key resolved against the container it addresses (negative Array indexes made absolute). */
  function NormKey(c: Val, k: Key): Key {
    if c.ArrV? && k.IntK? then IntK(ResolveIndex(k.i, |c.a|)) else k
  }

  /** A slot that holds an element: a present Hash key, or an in-range non-negative Array index. */
  predicate Slot(c: Val, k: Key) {
    (c.HashV? && k in c.m) || (c.ArrV? && k.IntK? && 0 <= k.i < |c.a|)
  }

  /** The element at a resolved slot; `nil` for a key that addresses nothing. */
  function Child(c: Val, k: Key): Val {
    match c
    case HashV(m) => if k in m then m[k] else NilV
    case ArrV(a) => if k.IntK? && 0 <= k.i < |a| then a[k.i] else NilV
    case _ => NilV
  }

  /** Overwrite the element at an existing slot. */
  function Replace(c: Val, k: Key, v: Val): (r: Val)
    requires Slot(c, k)
    ensures SameKind(c, r) && Slot(r, k) && Child(r, k) == v
    ensures c.ArrV? ==> |r.a| == |c.a|
    ensures forall k' :: k' != k ==> Child(r, k') == Child(c, k')
  {
    match c
    case HashV(m) => HashV(m[k := v])
    case ArrV(a) => ArrV(a[k.i := v])
  }

  /** `c.fetch(k)`: Hash#fetch raises KeyError on an absent key; Array#fetch accepts an
      Integer in [-length, length), raises IndexError on any other Integer and TypeError
      on a non-Integer; anything else has no `fetch`. */
  function Fetch(c: Val, k: Key): (r: Fetched)
    ensures Slot(c, NormKey(c, k)) ==> r == Found(Child(c, NormKey(c, k)))
    ensures r.Missing? ==> (c.HashV? && r.err == KeyError) || (c.ArrV? && r.err == IndexError)
    ensures r.Found? ==> Slot(c, NormKey(c, k)) && Child(c, NormKey(c, k)) == r.v
    ensures r.TypeFail? <==> !(c.HashV? || (c.ArrV? && k.IntK?))
  {
    match c
    case HashV(m) => if k in m then Found(m[k]) else Missing(KeyError)
    case ArrV(a) =>
      if k.IntK? then
        var j := ResolveIndex(k.i, |a|);
        if 0 <= j < |a| then Found(a[j]) else Missing(IndexError)
      else TypeFail
    case _ => TypeFail
  }

  /** `c[k]` with one argument. The same lookup as `fetch`, except that an absent key or
      index reads as `nil`. String#[] is not part of this model and reads as a failure. */
  function Read(c: Val, k: Key): (r: Result<Val>)
    ensures Fetch(c, k).Found? ==> r == Ok(Fetch(c, k).v)
    ensures Fetch(c, k).Missing? ==> r == Ok(NilV)
    ensures Fetch(c, k).TypeFail? ==> r == Err(OtherError)
  {
    match c
    case HashV(m) => Ok(if k in m then m[k] else NilV)
    case ArrV(a) =>
      if k.IntK? then
        var j := ResolveIndex(k.i, |a|);
        Ok(if 0 <= j < |a| then a[j] else NilV)
      else Err(OtherError)
    case _ => Err(OtherError)
  }

  /** `n` copies of `nil`: the gap Array#[]= leaves when it stores past the end. */
  function Nils(n: nat): (r: seq<Val>)
    ensures |r| == n && forall j :: 0 <= j < n ==> r[j] == NilV
  {
    seq(n, _ => NilV)
  }

  /** `c[k] = v` (native). A Hash stores under any key. An Array stores at an Integer
      index, padding with `nil` past the end; a negative index before the start raises
      IndexError and a non-Integer index raises TypeError. Anything else fails. */
  function Store(c: Val, k: Key, v: Val): (r: Result<Val>)
    ensures r.Ok? <==> c.HashV? || (c.ArrV? && k.IntK? && ResolveIndex(k.i, |c.a|) >= 0)
    ensures r.Err? && c.ArrV? && k.IntK? ==> r.error == IndexError
    ensures r.Ok? ==> SameKind(c, r.value) && Fetch(r.value, k) == Found(v)
    ensures r.Ok? ==> NormKey(r.value, k) == NormKey(c, k)
    ensures r.Ok? ==> Slot(r.value, NormKey(c, k)) && Child(r.value, NormKey(c, k)) == v
    ensures r.Ok? ==> forall k' :: k' != NormKey(c, k) ==> Child(r.value, k') == Child(c, k')
    ensures r.Ok? ==> forall k' :: Slot(c, k') ==> Slot(r.value, k')
    // a Hash gains exactly the key; an Array grows exactly to hold the index
    ensures r.Ok? && c.HashV? ==> r.value.HashV? && r.value.m.Keys == c.m.Keys + {k}
    ensures r.Ok? && c.ArrV? ==>
              k.IntK? && r.value.ArrV? && |r.value.a| == Max(|c.a|, ResolveIndex(k.i, |c.a|) + 1)
  {
    match c
    case HashV(m) => Ok(HashV(m[k := v]))
    case ArrV(a) =>
      if !k.IntK? then Err(OtherError)
      else if k.i < 0 then
        if k.i + |a| < 0 then Err(IndexError) else Ok(ArrV(a[k.i + |a| := v]))
      else if k.i < |a| then Ok(ArrV(a[k.i := v]))
      else Ok(ArrV(a + Nils(k.i - |a|) + [v]))
    case _ => Err(OtherError)
  }

  /** `c.count`: the number of entries of a Hash or elements of an Array. String#count
      needs an argument and nil and false have none, so everything else fails. */
  function Count(c: Val): (r: Result<nat>)
    ensures r.Ok? <==> IsContainer(c)
    ensures c.HashV? ==> r == Ok(|c.m|)
    ensures c.ArrV? ==> r == Ok(|c.a|)
  {
    match c
    case HashV(m) => Ok(|m|)
    case ArrV(a) => Ok(|a|)
    case _ => Err(OtherError)
  }

  function Min(x: int, y: int): int {
    if x < y then x else y
  }

  function Max(x: int, y: int): int {
    if x < y then y else x
  }

  /** Array#[start, length]: a negative start counts from the end; a start outside
      [0, size] or a negative length gives `nil`; otherwise the elements from start on,
      at most `length` of them. */
  function Slice(a: seq<Val>, start: int, len: int): (r: Val)
    ensures r.ArrV? || r == NilV
    ensures r.ArrV? <==> 0 <= ResolveIndex(start, |a|) <= |a| && len >= 0
    ensures r.ArrV? ==> |r.a| == Min(len, |a| - ResolveIndex(start, |a|))
    ensures r.ArrV? ==> forall j :: 0 <= j < |r.a| ==> r.a[j] == a[ResolveIndex(start, |a|) + j]
  {
    var b := ResolveIndex(start, |a|);
    if b < 0 || b > |a| || len < 0 then NilV
    else ArrV(a[b .. b + Min(len, |a| - b)])
  }

  /** Reading back through a key whose slot was overwritten yields the new element. */
  lemma FetchReplaced(c: Val, k: Key, v: Val)
    requires Slot(c, NormKey(c, k))
    ensures Fetch(Replace(c, NormKey(c, k), v), k) == Found(v)
  {
  }
}

=== FILE: paths.dfy ===
/**
  Addressing a node inside a tree by the list of resolved slots that leads to it.
  In the Ruby engine the write cursor holds a reference to a nested Hash or Array and
  changes it in place; in this value model the cursor holds the path from the root
  instead, and a change to the node at that path is written back with PutAt.
 */
module Paths {
  import opened Native

  /** The node reached by following resolved slots from `root`. */
  function At(root: Val, path: seq<Key>): Val
    decreases |path|
  {
    if path == [] then root else At(Child(root, path[0]), path[1..])
  }

  /** Every step of `path` goes through an existing slot. */
  predicate ValidPath(root: Val, path: seq<Key>)
    decreases |path|
  {
    path == [] || (Slot(root, path[0]) && ValidPath(Child(root, path[0]), path[1..]))
  }

  /** `root` with the node at `path` replaced by `v`. */
  function PutAt(root: Val, path: seq<Key>, v: Val): (r: Val)
    requires ValidPath(root, path)
    ensures path != [] ==> SameKind(root, r)
    decreases |path|
  {
    if path == [] then v
    else Replace(root, path[0], PutAt(Child(root, path[0]), path[1..], v))
  }

  lemma {:induction false} PutAtThenAt(root: Val, path: seq<Key>, v: Val)
    requires ValidPath(root, path)
    ensures ValidPath(PutAt(root, path, v), path)
    ensures At(PutAt(root, path, v), path) == v
    decreases |path|
  {
    if path != [] {
      PutAtThenAt(Child(root, path[0]), path[1..], v);
    }
  }

  lemma {:induction false} PutAtOwn(root: Val, path: seq<Key>)
    requires ValidPath(root, path)
    ensures PutAt(root, path, At(root, path)) == root
    decreases |path|
  {
    if path != [] {
      PutAtOwn(Child(root, path[0]), path[1..]);
      match root
      case HashV(m) =>
        assert m[path[0] := m[path[0]]] == m;
      case ArrV(a) =>
        assert a[path[0].i := a[path[0].i]] == a;
    }
  }

  lemma {:induction false} PutAtTwice(root: Val, path: seq<Key>, v: Val, w: Val)
    requires ValidPath(root, path)
    ensures ValidPath(PutAt(root, path, v), path)
    ensures PutAt(PutAt(root, path, v), path, w) == PutAt(root, path, w)
    decreases |path|
  {
    PutAtThenAt(root, path, v);
    if path != [] {
      PutAtTwice(Child(root, path[0]), path[1..], v, w);
      match root
      case HashV(m) =>
      case ArrV(a) =>
    }
  }

  /** Writing one slot below the node at `path` is writing a changed node at `path`. */
  lemma {:induction false} PutAtExtend(root: Val, path: seq<Key>, k: Key, x: Val)
    requires ValidPath(root, path) && Slot(At(root, path), k)
    ensures ValidPath(root, path + [k])
    ensures PutAt(root, path + [k], x) == PutAt(root, path, Replace(At(root, path), k, x))
    decreases |path|
  {
    if path == [] {
      assert [k][1..] == [];
    } else {
      assert (path + [k])[0] == path[0];
      assert (path + [k])[1..] == path[1..] + [k];
      PutAtExtend(Child(root, path[0]), path[1..], k, x);
    }
  }

  lemma {:induction false} AtExtend(root: Val, path: seq<Key>, k: Key)
    ensures At(root, path + [k]) == Child(At(root, path), k)
    decreases |path|
  {
    if path == [] {
      assert [k][1..] == [];
    } else {
      assert (path + [k])[0] == path[0];
      assert (path + [k])[1..] == path[1..] + [k];
      AtExtend(Child(root, path[0]), path[1..], k);
    }
  }

  /** Slot list `q` leaves `path`: both go on to a point where they take different slots. */
  predicate Diverges(q: seq<Key>, path: seq<Key>)
    decreases |q|
  {
    q != [] && path != [] && (q[0] != path[0] || Diverges(q[1..], path[1..]))
  }

  /** Below `nil`, `false`, a leaf or an empty container, every non-empty path reads `nil`
      and none is valid. */
  lemma AtFalsy(v: Val, q: seq<Key>)
    requires q != [] && (!IsContainer(v) || v == HashV(map[]) || v == ArrV([]))
    ensures At(v, q) == NilV && !ValidPath(v, q)
  {
    AtNil(q[1..]);
  }

  lemma {:induction false} AtNil(q: seq<Key>)
    ensures At(NilV, q) == NilV && (q != [] ==> !ValidPath(NilV, q))
    decreases |q|
  {
    if q != [] {
      AtNil(q[1..]);
    }
  }
}

=== FILE: set.dfy ===
/**
  XKeys::Set_Hash and XKeys::Set_Auto: extended, auto-vivifying assignment
  `tree[key1, ..., keyN] = value`. The two policies differ only in which next keys
  vivify an Array.
 */
module XKeysSet {
  import opened Native
  import opened XKeysGet
  import opened Paths

  /** The write mix-in a root was extended with: XKeys::Hash or XKeys::Auto. */
  datatype Policy = HashPolicy | AutoPolicy

  /** The classifier: a `nil` next key asks for an Array under both policies; an Integer
      next key asks for one only under the auto policy. */
  predicate WantsArray(p: Policy, next: Key) {
    next.NilK? || (p == AutoPolicy && next.IntK?)
  }

  /** The empty container `||=` puts into an empty slot ahead of `next`. */
  function Fresh(p: Policy, next: Key): Val {
    if WantsArray(p, next) then ArrV([]) else HashV(map[])
  }

  /** The inject cursor after one step: `parent` is the previous container after `||=`,
      `slot` the resolved place in it that holds `container`, and `(container, key)` is
      the new cursor. */
  datatype Cursor = Cursor(parent: Val, slot: Key, container: Val, key: Key)

  /** One turn of the inject block on cursor `(node, key)` with next key `next`:
      `node[key] ||= fresh`, then the new cursor is that element with `next`, a `nil`
      next key standing for the element's current `count`. */
  function Step(p: Policy, node: Val, key: Key, next: Key): (r: Result<Cursor>)
    ensures r.Ok? ==> r.value.slot == NormKey(node, key) == NormKey(r.value.parent, key)
    ensures r.Ok? ==> Slot(r.value.parent, r.value.slot)
    ensures r.Ok? ==> Child(r.value.parent, r.value.slot) == r.value.container
    ensures r.Ok? ==> IsContainer(node) && SameKind(node, r.value.parent)
    ensures r.Ok? ==> forall k :: k != r.value.slot ==> Child(r.value.parent, k) == Child(node, k)
    // `||=` keeps a truthy element and fills only a nil or false one
    ensures r.Ok? && Read(node, key).Ok? && Truthy(Read(node, key).value) ==>
              r.value.parent == node && r.value.container == Read(node, key).value
    ensures r.Ok? && Read(node, key).Ok? && !Truthy(Read(node, key).value) ==>
              r.value.container == Fresh(p, next)
    // a nil next key resolves to the count of the container; the cursor key is never nil
    ensures r.Ok? && next != NilK ==> r.value.key == next
    ensures r.Ok? && next == NilK ==> r.value.key.IntK? && Count(r.value.container) == Ok(r.value.key.i)
    ensures r.Ok? ==> r.value.key != NilK
    // the filled node is the native store of the fresh container, and gains only that slot
    ensures r.Ok? && Read(node, key).Ok? && !Truthy(Read(node, key).value) ==>
              Store(node, key, Fresh(p, next)) == Ok(r.value.parent)
    ensures r.Ok? ==> forall k :: Slot(node, k) ==> Slot(r.value.parent, k)
    ensures r.Ok? && node.HashV? ==> r.value.parent.m.Keys == node.m.Keys + {key}
    ensures r.Ok? && node.ArrV? ==>
              key.IntK? && |r.value.parent.a| == Max(|node.a|, ResolveIndex(key.i, |node.a|) + 1)
    // the step succeeds on an existing container, and on an empty slot the node can store into
    ensures Read(node, key).Ok? && IsContainer(Read(node, key).value) ==> r.Ok?
    ensures Read(node, key).Ok? && !Truthy(Read(node, key).value) && Store(node, key, NilV).Ok? ==> r.Ok?
  {
    match Read(node, key)
    case Err(e) => Err(e)
    case Ok(cur) =>
      var filled := if Truthy(cur) then Ok(node) else Store(node, key, Fresh(p, next));
      if filled.Err? then Err(filled.error)
      else
        var container := if Truthy(cur) then cur else Fresh(p, next);
        if next.NilK? then
          match Count(container)
          case Err(e) => Err(e)
          case Ok(n) => Ok(Cursor(filled.value, NormKey(node, key), container, IntK(n)))
        else Ok(Cursor(filled.value, NormKey(node, key), container, next))
  }

  /** The path form from cursor `(node, key)` with the remaining keys `rest`: the new
      `node` and the outcome. On failure the containers vivified so far stay in place. */
  function WriteFrom(p: Policy, node: Val, key: Key, rest: seq<Key>, value: Val): (r: (Val, Result<Val>))
    ensures r.1.Ok? ==> r.1 == Ok(value)
    ensures IsContainer(node) ==> SameKind(node, r.0)
    ensures forall k :: k != NormKey(node, key) ==> Child(r.0, k) == Child(node, k)
    ensures forall k :: Slot(node, k) ==> Slot(r.0, k)
    // the node is left as it was, or gains exactly the slot the first key resolves to
    ensures node.HashV? ==> r.0.HashV? && (r.0 == node || r.0.m.Keys == node.m.Keys + {key})
    ensures node.ArrV? ==>
              r.0.ArrV? &&
              (r.0 == node || (key.IntK? && |r.0.a| == Max(|node.a|, ResolveIndex(key.i, |node.a|) + 1)))
    ensures r.1.Ok? && node.HashV? ==> r.0.m.Keys == node.m.Keys + {key}
    ensures r.1.Ok? && node.ArrV? ==> key.IntK? && |r.0.a| == Max(|node.a|, ResolveIndex(key.i, |node.a|) + 1)
    decreases |rest|
  {
    if rest == [] then
      match Store(node, key, value)
      case Ok(stored) => (stored, Ok(value))
      case Err(e) => (node, Err(e))
    else
      match Step(p, node, key, rest[0])
      case Err(e) => (node, Err(e))
      case Ok(c) =>
        var below := WriteFrom(p, c.container, c.key, rest[1..], value);
        (Replace(c.parent, c.slot, below.0), below.1)
  }

  /** `root[key1, ..., keyN] = value` under policy `p`: the new root and what the call
      returns. With one key, `nil` appends to an Array root (Set_Auto then returns the
      Array itself) and any other key is a native store. */
  function Assign(p: Policy, root: Val, keys: seq<Key>, value: Val): (r: (Val, Result<Val>))
    requires |keys| >= 1
    ensures |keys| >= 2 && r.1.Ok? ==> r.1 == Ok(value)
    ensures IsContainer(root) ==> SameKind(root, r.0)
    ensures root.ArrV? && keys == [NilK] ==>
              r.0.ArrV? && |r.0.a| == |root.a| + 1 && r.0.a[..|root.a|] == root.a && r.0.a[|root.a|] == value
    // Set_Hash returns the value, Set_Auto the Array it pushed onto
    ensures root.ArrV? && keys == [NilK] ==> r.1 == Ok(if p == HashPolicy then value else r.0)
    // any other single key is a plain native store
    ensures |keys| == 1 && !(root.ArrV? && keys[0] == NilK) ==>
              r == (var s := Store(root, keys[0], value);
                    if s.Ok? then (s.value, Ok(value)) else (root, Err(s.error)))
  {
    if |keys| == 1 then
      if root.ArrV? && keys[0] == NilK then
        var pushed := ArrV(root.a + [value]);
        (pushed, Ok(if p == HashPolicy then value else pushed))
      else
        match Store(root, keys[0], value)
        case Ok(stored) => (stored, Ok(value))
        case Err(e) => (root, Err(e))
    else WriteFrom(p, root, keys[0], keys[1..], value)
  }

  /** Once a `nil` or `false` slot is filled by a successful step, the node left in that
      slot is an Array exactly when the key after it asks for one, whatever follows. */
  lemma FreshDecidesKind(p: Policy, node: Val, key: Key, next: Key, rest: seq<Key>, value: Val)
    requires Read(node, key).Ok? && !Truthy(Read(node, key).value)
    requires Store(node, key, NilV).Ok?
    ensures var w := WriteFrom(p, node, key, [next] + rest, value).0;
            IsContainer(Child(w, NormKey(node, key))) &&
            (Child(w, NormKey(node, key)).ArrV? <==> WantsArray(p, next))
  {
    assert ([next] + rest)[0] == next && ([next] + rest)[1..] == rest;
  }

  /** Auto-vivification succeeds: from an empty slot that the node can store into, a path
      write whose later keys are no negative Integers vivifies every level and stores. */
  lemma {:induction false} WriteFromVivifies(p: Policy, node: Val, key: Key, rest: seq<Key>, value: Val)
    requires Read(node, key).Ok? && !Truthy(Read(node, key).value)
    requires Store(node, key, NilV).Ok?
    requires forall j :: 0 <= j < |rest| ==> !(rest[j].IntK? && rest[j].i < 0)
    ensures WriteFrom(p, node, key, rest, value).1 == Ok(value)
    decreases |rest|
  {
    if rest != [] {
      var c := Step(p, node, key, rest[0]).value;
      WriteFromVivifies(p, c.container, c.key, rest[1..], value);
    }
  }

  /** Round trip without a success premise: a vivifying write of keys that are neither `nil`
      nor negative Integers reads back through the same keys. */
  lemma VivifyThenFetch(p: Policy, node: Val, key: Key, rest: seq<Key>, value: Val)
    requires Read(node, key).Ok? && !Truthy(Read(node, key).value)
    requires Store(node, key, NilV).Ok?
    requires forall j :: 0 <= j < |rest| ==> rest[j] != NilK && !(rest[j].IntK? && rest[j].i < 0)
    ensures FetchPath(WriteFrom(p, node, key, rest, value).0, [key] + rest) == Found(value)
  {
    WriteFromVivifies(p, node, key, rest, value);
    WriteThenFetch(p, node, key, rest, value);
  }

  /** The slots a path write goes through, resolved level by level from `node` down. */
  function WrittenSlots(p: Policy, node: Val, key: Key, rest: seq<Key>): seq<Key>
    decreases |rest|
  {
    if rest == [] then [NormKey(node, key)]
    else
      match Step(p, node, key, rest[0])
      case Err(_) => [NormKey(node, key)]
      case Ok(c) => [c.slot] + WrittenSlots(p, c.container, c.key, rest[1..])
  }

  /** A path write changes nothing off its own path: every node reached along a slot list
      that leaves the written slots is as it was, and every existing slot remains. */
  lemma {:induction false} WriteFromFrame(p: Policy, node: Val, key: Key, rest: seq<Key>, value: Val,
                                          q: seq<Key>)
    requires Diverges(q, WrittenSlots(p, node, key, rest))
    ensures At(WriteFrom(p, node, key, rest, value).0, q) == At(node, q)
    ensures ValidPath(node, q) ==> ValidPath(WriteFrom(p, node, key, rest, value).0, q)
    decreases |rest|
  {
    if q[0] != NormKey(node, key) {
      OffPathFrame(p, node, key, rest, value, q);
    } else {
      var c := Step(p, node, key, rest[0]).value;
      WriteFromFrame(p, c.container, c.key, rest[1..], value, q[1..]);
      if c.container != Child(node, q[0]) {
        // the slot held `nil` or `false` and now holds a fresh empty container
        AtFalsy(Child(node, q[0]), q[1..]);
        AtFalsy(c.container, q[1..]);
      }
    }
  }

  /** The first level of the frame: a slot list that starts off the written slot. */
  lemma OffPathFrame(p: Policy, node: Val, key: Key, rest: seq<Key>, value: Val, q: seq<Key>)
    requires q != [] && q[0] != NormKey(node, key)
    ensures At(WriteFrom(p, node, key, rest, value).0, q) == At(node, q)
    ensures ValidPath(node, q) ==> ValidPath(WriteFrom(p, node, key, rest, value).0, q)
  {
    assert Child(WriteFrom(p, node, key, rest, value).0, q[0]) == Child(node, q[0]);
  }

  /** After a successful write along keys without a `nil` after the first, fetching the
      same keys finds the stored value. */
  lemma {:induction false} WriteThenFetch(p: Policy, node: Val, key: Key, rest: seq<Key>, value: Val)
    requires NilK !in rest
    requires WriteFrom(p, node, key, rest, value).1.Ok?
    ensures FetchPath(WriteFrom(p, node, key, rest, value).0, [key] + rest) == Found(value)
    decreases |rest|
  {
    var w := WriteFrom(p, node, key, rest, value);
    if rest == [] {
      assert ([key] + rest)[1..] == [];
    } else {
      var c := Step(p, node, key, rest[0]).value;
      assert c.key == rest[0];
      assert NilK !in rest[1..];
      var below := WriteFrom(p, c.container, c.key, rest[1..], value);
      WriteThenFetch(p, c.container, c.key, rest[1..], value);
      FetchReplaced(c.parent, key, below.0);
      assert ([key] + rest)[0] == key;
      assert ([key] + rest)[1..] == [c.key] + rest[1..];
    }
  }

  /** Round trip: after `root[keys] = value` succeeds, with no `nil` key, the extended
      fetch of the same keys returns `value`, whatever the options. */
  lemma AssignThenXFetch(p: Policy, root: Val, keys: seq<Key>, value: Val, opts: Option<Options>)
    requires |keys| >= 1 && NilK !in keys
    requires Assign(p, root, keys, value).1.Ok?
    ensures XFetch(Assign(p, root, keys, value).0, keys, opts) == Ok(value)
  {
    assert keys[0] != NilK;
    assert SkipLeadingNil(keys) == keys;
    if |keys| >= 2 {
      assert NilK !in keys[1..];
      WriteThenFetch(p, root, keys[0], keys[1..], value);
      assert [keys[0]] + keys[1..] == keys;
    } else {
      var stored := Assign(p, root, keys, value).0;
      assert Fetch(stored, keys[0]) == Found(value);
      assert FetchPath(stored, keys) == FetchPath(value, keys[1..]);
      assert keys[1..] == [];
    }
  }

  /** Round trip through `[]`: the same, except that two Integer keys on an Array root
      read back a slice instead. */
  lemma AssignThenIndex(p: Policy, root: Val, keys: seq<Key>, value: Val)
    requires IsContainer(root) && |keys| >= 1 && NilK !in keys
    requires Assign(p, root, keys, value).1.Ok?
    requires !IsSliceCall(root, keys, None)
    ensures Index(Assign(p, root, keys, value).0, keys, None) == Ok(value)
  {
    AssignThenXFetch(p, root, keys, value, ElseNil);
    if |keys| == 1 {
      assert Fetch(Assign(p, root, keys, value).0, keys[0]) == Found(value);
    }
  }

  /** The policies differ only on Integer next keys: without one, they write the same tree
      and return the same outcome. */
  lemma {:induction false} PoliciesAgreeWithoutIntegers(node: Val, key: Key, rest: seq<Key>, value: Val)
    requires forall j :: 0 <= j < |rest| ==> !rest[j].IntK?
    ensures WriteFrom(HashPolicy, node, key, rest, value) == WriteFrom(AutoPolicy, node, key, rest, value)
    decreases |rest|
  {
    if rest != [] {
      assert Step(HashPolicy, node, key, rest[0]) == Step(AutoPolicy, node, key, rest[0]);
      var s := Step(HashPolicy, node, key, rest[0]);
      if s.Ok? {
        PoliciesAgreeWithoutIntegers(s.value.container, s.value.key, rest[1..], value);
      }
    }
  }

  /** A trailing `nil` appends: the value becomes element `count` of the Array at that
      slot (the existing one, or a fresh one when the slot held nil or false). */
  lemma TrailingNilAppends(p: Policy, node: Val, key: Key, value: Val, xs: seq<Val>)
    requires Read(node, key) == Ok(ArrV(xs)) || (Read(node, key).Ok? && !Truthy(Read(node, key).value) && xs == [])
    requires Store(node, key, ArrV([])).Ok?
    ensures WriteFrom(p, node, key, [NilK], value).1 == Ok(value)
    ensures Child(WriteFrom(p, node, key, [NilK], value).0, NormKey(node, key)) == ArrV(xs + [value])
  {
  }

  /** An Integer next key on an empty slot: the auto policy vivifies an Array padded with
      nil up to that index, the hash policy a Hash with that Integer key. */
  lemma IntegerKeyVivifies(node: Val, key: Key, i: nat, value: Val)
    requires Read(node, key).Ok? && !Truthy(Read(node, key).value)
    requires Store(node, key, NilV).Ok?
    ensures Child(WriteFrom(AutoPolicy, node, key, [IntK(i)], value).0, NormKey(node, key)) ==
              ArrV(Nils(i) + [value])
    ensures Child(WriteFrom(HashPolicy, node, key, [IntK(i)], value).0, NormKey(node, key)) ==
              HashV(map[IntK(i) := value])
  {
  }
}

=== FILE: tree.dfy ===
/**
  A Hash or Array root extended with XKeys::Hash or XKeys::Auto: the root is changed in
  place by `[]=`, and the write policy is fixed when the root is set up.
 */
module XKeysTree {
  import opened Native
  import opened Paths
  import XKeysSet

  class KeyedTree {
    var root: Val
    const policy: XKeysSet.Policy

    /** The root stays the Hash or Array it was created as. */
    ghost predicate Valid()
      reads this
    {
      IsContainer(root)
    }

    constructor (root0: Val, policy0: XKeysSet.Policy)
      requires IsContainer(root0)
      ensures Valid() && root == root0 && policy == policy0
    {
      root := root0;
      policy := policy0;
    }

    /** `root[keys...] = value`. With one key this is the push or the native store;
        otherwise the path form below. */
    method Assign(keys: seq<Key>, value: Val) returns (r: Result<Val>)
      requires Valid() && |keys| >= 1
      modifies this
      ensures Valid() && SameKind(old(root), root)
      ensures (root, r) == XKeysSet.Assign(policy, old(root), keys, value)
    {
      if |keys| >= 2 {
        r := AssignPath(keys, value);
      } else if root.ArrV? && keys[0] == NilK {
        root := ArrV(root.a + [value]);
        r := Ok(if policy == XKeysSet.HashPolicy then value else root);
      } else {
        var stored := Store(root, keys[0], value);
        if stored.Err? {
          r := Err(stored.error);
        } else {
          root := stored.value;
          r := Ok(value);
        }
      }
    }

    /** The path form: walks the cursor `(node, key)` down the tree one key at a time,
        filling empty slots on the way, and stores `value` at the last cursor; `path`
        records where the cursor's node sits below the root. */
    method AssignPath(keys: seq<Key>, value: Val) returns (r: Result<Val>)
      requires Valid() && |keys| >= 2
      modifies this
      ensures Valid() && SameKind(old(root), root)
      ensures (root, r) == XKeysSet.WriteFrom(policy, old(root), keys[0], keys[1..], value)
    {
      ghost var spec := XKeysSet.WriteFrom(policy, root, keys[0], keys[1..], value);
      var path: seq<Key> := [];
      var node, key, rest := root, keys[0], keys[1..];
      while rest != []
        invariant ValidPath(root, path) && node == At(root, path)
        invariant SameKind(old(root), root)
        invariant spec.0 == PutAt(root, path, XKeysSet.WriteFrom(policy, node, key, rest, value).0)
        invariant spec.1 == XKeysSet.WriteFrom(policy, node, key, rest, value).1
        decreases |rest|
      {
        var step := XKeysSet.Step(policy, node, key, rest[0]);
        if step.Err? {
          PutAtOwn(root, path);
          r := Err(step.error);
          return;
        }
        var c := step.value;
        CursorAdvance(policy, root, path, node, key, rest, value);
        root := PutAt(root, path, c.parent);
        path := path + [c.slot];
        node, key, rest := c.container, c.key, rest[1..];
      }
      CursorStore(policy, root, path, node, key, value);
      var stored := Store(node, key, value);
      if stored.Err? {
        r := Err(stored.error);
      } else {
        root := PutAt(root, path, stored.value);
        r := Ok(value);
      }
    }
  }

  /** One turn of the write loop: moving the cursor one key down, after writing the
      filled node back, leaves the same pending write. */
  lemma CursorAdvance(p: XKeysSet.Policy, root: Val, path: seq<Key>, node: Val, key: Key,
                      rest: seq<Key>, value: Val)
    requires ValidPath(root, path) && node == At(root, path) && rest != []
    requires XKeysSet.Step(p, node, key, rest[0]).Ok?
    ensures var c := XKeysSet.Step(p, node, key, rest[0]).value;
            var root' := PutAt(root, path, c.parent);
            && ValidPath(root', path + [c.slot])
            && At(root', path + [c.slot]) == c.container
            && SameKind(root, root')
            && PutAt(root, path, XKeysSet.WriteFrom(p, node, key, rest, value).0) ==
                 PutAt(root', path + [c.slot], XKeysSet.WriteFrom(p, c.container, c.key, rest[1..], value).0)
            && XKeysSet.WriteFrom(p, node, key, rest, value).1 ==
                 XKeysSet.WriteFrom(p, c.container, c.key, rest[1..], value).1
  {
    var c := XKeysSet.Step(p, node, key, rest[0]).value;
    var below := XKeysSet.WriteFrom(p, c.container, c.key, rest[1..], value).0;
    PutAtThenAt(root, path, c.parent);
    PutAtTwice(root, path, c.parent, Replace(c.parent, c.slot, below));
    var root' := PutAt(root, path, c.parent);
    PutAtExtend(root', path, c.slot, below);
    AtExtend(root', path, c.slot);
  }

  /** The last turn: storing at the cursor and writing the node back is the pending write,
      and a failed store leaves the root as it is. */
  lemma CursorStore(p: XKeysSet.Policy, root: Val, path: seq<Key>, node: Val, key: Key, value: Val)
    requires ValidPath(root, path) && node == At(root, path) && IsContainer(root)
    ensures var w := XKeysSet.WriteFrom(p, node, key, [], value);
            && w.1 == (if Store(node, key, value).Ok? then Ok(value) else Err(Store(node, key, value).error))
            && (w.1.Err? ==> PutAt(root, path, w.0) == root)
            && (w.1.Ok? ==> w.0 == Store(node, key, value).value && SameKind(root, PutAt(root, path, w.0)))
  {
    PutAtOwn(root, path);
  }
}
